=== FILE: README.md ===
# Turbomentario comments — a Dafny model

Turbomentario is a small Flask application where logged-in users post
comments with an optional image or video upload. Comments can be replies
to other comments. The browser script also offers like, edit, delete and
report buttons and loads existing comments on start-up. Of the comment
routes, however, `app.py` defines only the submission route and the upload
route; there is no route that lists, likes, edits, deletes or reports
comments. This project models the decision logic of both halves:

- **The server** (`app.py`):
  - the upload-extension validator `allowed_file`;
  - the moderation hook `moderate_text`;
  - the comment-submission route `add_comment`, which validates a
    submission, builds the row and inserts it into the `comments` table.
  The sqlite table is modelled as a map from comment id to row.
- **The browser script** (`back-end/static/scripts.js`):
  - the like de-duplication kept in `localStorage`;
  - the guard that decides whether an edit is sent;
  - the choice of video or image element for media;
  - the choice of container a comment is appended to;
  - the state of the comment form around a submission.
  The DOM is reduced to a map from container id to the ids of the comments
  appended to it. Every server answer is a parameter.

Files:

- `option.dfy`: the `Option` type.
- `text.dfy`: string helpers.
  - ASCII lower-casing.
  - The last occurrence of a character, which is where `rsplit('.', 1)`
    splits.
  - JavaScript's `endsWith`.
- `app.dfy` (module `App`): the server.
- `scripts.dfy` (module `Scripts`): the browser script.
- `flow.dfy` (module `Flow`): one submission end to end. The form is sent,
  the route decides, and the script handles the answer.

Behaviour worth knowing that the model makes explicit:

- Only the text after the last `.` is compared, ignoring case. So
  `a.exe.png` is accepted, `a.png.exe` is refused, and `a.` and `noext` are
  refused.
- The deployed moderation policy flags nothing. The route takes the policy
  as a parameter and consults it before it looks at the upload.
- An empty text is accepted. Only a *missing* `comment` field is refused.
  The route raises a key error when it reads the field (app.py:126). The
  application runs with `debug=True` (app.py:176), and in debug mode the
  framework answers that error with a 500 debugger page.
- Requests the server has no route for get an HTML error page, not JSON.
  Loading the comment list on start-up gets a 405, and every like, edit,
  delete and report request gets a 404. The script cannot parse those
  pages and takes its `.catch` path, which the model calls `Unreachable`.
  So on start-up no comment is rendered. A like never reaches the liked
  list, and an edit only sets edit mode and raises the connection alert.
- The form is sent as `multipart/form-data`, and the browser encodes the
  fields on the way. In text fields, a lone CR, a lone LF and a CRLF pair
  all become CRLF. In the file name, `"`, CR and LF become `%22`, `%0D` and
  `%0A`. The server stores and validates these encoded values, so a
  comment typed with LF line breaks is stored with CRLF, and a file chosen
  as `a"b.png` is saved and served as `a%22b.png`.
- Uploads are saved under the client's file name, so two uploads with the
  same name share one URL and the later one replaces the earlier file.
- An uploaded file object counts as "no media" when its file name is
  empty. Flask's file objects are falsy in that case.
- The parent id is stored exactly as sent and never checked. The script
  always sends the hidden `parent_id` field. So a top-level comment from
  this page is stored with parent id `""`, not with a missing parent id.
- The like list is stored under the key `likedComments-<name>`. The `<name>`
  the page passes is the *author of the liked comment*, not the user who
  clicks. Only a successful like writes the list.
- `displayComment` has a branch that creates a missing replies container.
  On every page the script builds, that branch runs only when the parent
  comment is not on the page, and it throws. So a reply is rendered exactly
  when its parent is on the page.
  - If the parent is missing when the user submits a reply, the server
    stores the reply anyway.
  - The script then reports a connection error and does not clear the form.
- The script renders media as a video only when its URL ends with `.mp4`,
  and this test is case-sensitive. So accepted `.mov` and `.MP4` uploads are
  rendered as images.

## Model

| member | source | states |
|---|---|---|
| Text.LastIndexOf | app.py:32 | the split point of `rsplit('.', 1)`: None exactly when the name has no `.`, otherwise an index holding `.` with no `.` after it |
| App.Extension | app.py:32 | the text after the last `.`: absent exactly when there is no `.`, contains no `.`, and ends the file name right after a `.` |
| App.ExtensionOfSplit | app.py:32 | splitting at the last `.` yields `ext` for `base + "." + ext` whenever `ext` has no `.`, whatever dots `base` holds |
| App.AllowedFile | app.py:30-32 | a name without `.` is never accepted |
| App.AllowedFileSplit | app.py:32 | for any base, even one with dots, `base + "." + ext` (ext without `.`) is accepted exactly when `ext` lower-cases to one of png, jpg, jpeg, gif, mp4, mov |
| App.AllowedFileNeedsExtension | app.py:31-32 | names with no `.` and names ending in `.` (empty extension) are refused |
| App.AllowedFileIgnoresCase | app.py:32 | two names that lower-case to the same string are both accepted or both refused |
| App.DoubleExtensionAccepted | app.py:30-32 | `a.exe.png` is accepted |
| App.DoubleExtensionRefused | app.py:30-32 | `a.png.exe` is refused |
| App.UpperCaseAccepted | app.py:30-32 | `A.PNG` is accepted |
| App.MissingExtensionRefused | app.py:30-32 | `noext` and `a.` are refused |
| App.SourceModeration | app.py:35-37 | the deployed moderation policy flags no text |
| App.ServedFile | app.py:169-171 | a URL the upload route serves names a non-empty file without `/`, and the URL built for that file is the URL itself |
| App.ServedFileOfMediaUrl | app.py:141 | for an accepted, URL-safe name (non-empty, without `/`, backslash, `#`, `?`, `%`, tab, line feed, carriage return, `&` or `"`), the URL `/uploads/<name>` built for the upload leads the upload route back to the name the file was saved under |
| App.AddComment | app.py:124-163 | missing text is refused first (a 500 under the debug mode the app runs in); moderation is consulted before the upload; every refusal leaves the table unchanged, and the route's own refusals are 400s; the submission is accepted exactly when text is present, not flagged, and any upload is allowed; on success the table gains exactly the fresh key, all other rows stay, and the new row has the author, the text, zero likes, the parent id as supplied and media `/uploads/<name>` exactly when a file was uploaded; the response carries that row with no replies |
| App.StoredMediaIsServed | app.py:138-143 | the media URL stored with an accepted upload of a URL-safe name leads the upload route back to the name the file was saved under |
| App.SameNameSharesUrl | app.py:139-141 | two accepted uploads with the same name, stored under different ids, get the same media URL |
| App.SourceModerationNeverRefuses | app.py:132-136 | with the deployed policy, a submission with text is refused only for a disallowed upload, never as inappropriate |
| App.ParentIdNotValidated | app.py:129-150 | acceptance does not depend on the parent id, which is stored unchanged whatever it is |
| App.CreatedRowReadsBack | app.py:145-162 | the row stored under the fresh id is the one the response returns, and the table grows by one row |
| Scripts.LikeComment | back-end/static/scripts.js:102-125 | a request is sent exactly when the id is not yet liked; an already-liked id only raises the alert and keeps the list; a successful like appends the id once and shows the server's count; a refused or failed like keeps the list |
| Scripts.LikeKeepsNoDuplicates | back-end/static/scripts.js:104-113 | a like keeps a duplicate-free list duplicate-free, and the id is in the list afterwards exactly when it was before or the like succeeded |
| Scripts.LikeIsIdempotent | back-end/static/scripts.js:103-124 | after a successful like, a second click sends nothing and changes nothing |
| Scripts.LikeRunExtends | back-end/static/scripts.js:103-113 | over any number of clicks the liked list only grows: the old list stays a prefix |
| Scripts.LikeRunKeepsNoDuplicates | back-end/static/scripts.js:104-113 | over any number of clicks the liked list never holds an id twice |
| Scripts.AtMostOneAcceptedLike | back-end/static/scripts.js:102-125 | from one liked list, any sequence of clicks gives a comment at most one accepted like, and none if it was already liked |
| Scripts.LikeInBrowser | back-end/static/scripts.js:103-113 | storage is written only after a successful like, which appends the id to the list under `likedComments-<name>`; every other key is untouched |
| Scripts.ShouldSendEdit | back-end/static/scripts.js:136 | an edit is sent exactly when the prompt returns a non-empty text different from the shown one |
| Scripts.EditComment | back-end/static/scripts.js:132-159 | nothing changes unless the edit is sent; a successful edit shows the server's text and clears edit mode; a failed one keeps the text, leaves edit mode set and alerts |
| Scripts.EditIsIdempotent | back-end/static/scripts.js:136-147 | after a successful edit whose echo equals the answer, giving the same answer again sends nothing |
| Scripts.RenderMedia | back-end/static/scripts.js:89 | no element for missing or empty media; a video exactly when the URL ends with `.mp4` (case-sensitive); an image otherwise |
| Scripts.RepliesContainersDistinct | back-end/static/scripts.js:69-97 | replies containers of different comments are different elements and never the top-level container |
| Scripts.ReplyGoesUnderParent | back-end/static/scripts.js:69 | a reply goes into `replies-<parent_id>`, the container its parent rendered; a non-reply does not |
| Scripts.DisplayComment | back-end/static/scripts.js:68-99 | rendering succeeds exactly when the chosen container exists; then the comment id is appended to it, no other container changes, and the comment's own replies container exists |
| Scripts.ShowsPersists | back-end/static/scripts.js:99 | rendering never removes a comment from the page |
| Scripts.RepliesContainerIffShown | back-end/static/scripts.js:69-97 | on a well-formed page, the replies container of a comment exists exactly when the comment is on the page |
| Scripts.DisplayKeepsWellFormed | back-end/static/scripts.js:68-99 | rendering that does not throw keeps the page well-formed |
| Scripts.DisplayOnWellFormedPage | back-end/static/scripts.js:68-99 | on a well-formed page a top-level comment always renders; a reply renders exactly when its parent is on the page; a throw leaves the page unchanged |
| Scripts.EmptyPage | back-end/static/scripts.js:1-15 | the page before any comment is rendered is well-formed and shows no comment |
| Scripts.ReplyTo | back-end/static/scripts.js:127-130 | the Reply button sets the hidden parent id and nothing else |
| Scripts.NormalizeNewlines | back-end/static/scripts.js:24-26 | a text field is sent with CRLF as its only line break, unchanged when it has no CR or LF, and empty exactly when it was empty |
| Scripts.NormalizeKeepsCrlf | back-end/static/scripts.js:24-26 | text already in CRLF form is sent unchanged |
| Scripts.NormalizeIdempotent | back-end/static/scripts.js:24-26 | encoding a text field twice gives the same as encoding it once |
| Scripts.EscapeFileName | back-end/static/scripts.js:27-28 | a file name is sent with no double quote, CR or LF left, unchanged when it had none, and empty exactly when it was empty |
| Scripts.EscapePlainPrefix | back-end/static/scripts.js:27-28 | a leading part without double quote, CR or LF is sent as it is |
| Scripts.QuoteInFileNameEscaped | back-end/static/scripts.js:27-28 | a double quote between plain parts is sent as `%22` and nothing else changes |
| Scripts.SentMedia | back-end/static/scripts.js:21-28 | a file part is sent exactly when a file is chosen, and it has a non-empty name exactly when the chosen file has |
| Scripts.FormRequest | back-end/static/scripts.js:20-29 | the request always carries the text and the parent id (possibly empty) in CRLF form, unchanged when they have no line break; the parent id is empty exactly when the form is not a reply; the file goes only when one is chosen, under a name with no quote, CR or LF |
| Scripts.AfterSubmit | back-end/static/scripts.js:36-48 | a failed submission leaves page and form unchanged and alerts; a created comment is rendered as a reply iff the parent field is non-empty; then the file and parent fields are cleared and the text kept, unless rendering throws, which alerts and keeps the form |
| Flow.ClientSees | back-end/static/scripts.js:35-47 | the script sees success exactly for a created comment, gets the same record, and sees a plain failure exactly for the route's own refusals |
| Flow.Submit | back-end/static/scripts.js:17-49 | the table changes exactly when the server accepts the form; a refusal changes neither page nor form and raises the failure alert; an accepted form adds exactly the row built from its text, file name and hidden parent field, as the request body encodes them, under the fresh id, and the script then handles that row with no replies |
| Flow.ReplyButtonThenSubmit | back-end/static/scripts.js:127-130 | pressing Reply on a comment shown on the page and submitting an accepted form puts the new comment in that comment's replies container, stores the comment's id as parent id, and clears the hidden field |
| Flow.LikesNeverRecorded | back-end/static/scripts.js:102-121 | when every like request fails to parse (the server has no like route), no number of clicks changes the liked list |
| Flow.RefusedSubmitChangesNothing | app.py:132-136 | a refused submission changes neither the table, the page nor the form, and alerts |
| Flow.TopLevelSubmit | back-end/static/scripts.js:20-40 | an accepted top-level comment is stored with parent id `""` and its text in CRLF form, appended to `comments`, and the file and parent fields are cleared while the text stays |
| Flow.ReplySubmitToShownParent | back-end/static/scripts.js:38 | an accepted reply whose parent id (as the body encodes it) is on the page is stored with that parent id, appended to the parent's replies container, and the form is reset |
| Flow.ReplySubmitToHiddenParent | back-end/static/scripts.js:68-78 | an accepted reply whose parent id (as the body encodes it) is not on the page is stored with that parent id, but the script throws, alerts a connection error, and leaves page and form unchanged |
| Flow.QuotedFileNameStoredEscaped | back-end/static/scripts.js:27-28 | a chosen file named `a"b.png` is stored with media URL `/uploads/a%22b.png` |
| Flow.SubmitKeepsPageWellFormed | back-end/static/scripts.js:36-48 | every submission keeps the page well-formed |
| Flow.AcceptedUploadRendering | back-end/static/scripts.js:89 | an accepted upload renders as a video exactly when its file name ends with lower-case `.mp4`, and as an image otherwise |
| Flow.MovUploadRenderedAsImage | app.py:31 | `clip.mov` is accepted by the server and rendered as an image |

## Left out

- Registration, login, logout and the `User` table (app.py:62-120) are left
  out. They are thin wrappers over the session and ORM libraries. The
  plaintext password comparison is not modelled.
- Opening and closing the sqlite connection, `init_db` and commits
  (app.py:40-59, 145-152) are replaced by the in-memory map.
- `uuid.uuid4()` (app.py:128) is replaced by the `freshId` parameter. Its
  precondition says the id is not already a key of the table. A clash would
  be a primary-key error in the source.
- App.ServedFileOfMediaUrl: holds only for accepted, URL-safe names. The
  URL is built without escaping (app.py:141) and written unescaped into
  `innerHTML` (scripts.js:89). Other names fetch a different path:
  - `#` and `?` end the path;
  - `%` is percent-decoded by the server;
  - a backslash is read as `/`;
  - tab, line feed and carriage return are dropped by the URL parser;
  - `&` starts a character reference (`&amp;` becomes `&`);
  - `"` ends the `src` attribute.
  The names `.` and `..` would be path steps; they are not accepted uploads.
- App.StoredMediaIsServed: holds only for URL-safe names, for the same
  reason. It speaks of the file *name*, not its contents; see the next line.
- Uploads are saved under the name the client sent (app.py:139-140). Two
  comments whose uploads share a name get the same media URL
  (App.SameNameSharesUrl). The later save overwrites the file, so the
  earlier comment then shows the later upload. File contents are not
  modelled.
- App.AddComment: the missing-field status is 500 because the app runs
  with `debug=True` (app.py:176). A deployment without debug mode would
  answer 400 instead. The model fixes debug mode on.
- Saving the uploaded file (app.py:139-140) and serving it from disk
  (app.py:169-171) are filesystem I/O and are left out. Only the URL and
  the file name it leads back to are modelled. Because the name is not
  sanitised, a name with `../` would be saved outside the upload folder;
  this is not modelled.
- The generic exception-to-500 path (app.py:165-167) is left out.
- The server has no route to list, like, edit, delete or report comments,
  so the model has none of them either. It has no comment-tree assembler
  and no ownership checks. The client's handling of like and edit answers
  takes the answer as a parameter. With this server, that answer is always
  `Unreachable`.
- `App.AllowedFile`: lower-casing is ASCII only. Python's `str.lower` is
  Unicode-aware, so it also lower-cases letters such as `Ñ`.
- The DOM is left out:
  - element construction and `innerHTML`;
  - the file-name label of the file input;
  - `deleteComment`, `reportComment` and the page-load loop (lines 1-15);
  - `alert`, `confirm` and `prompt`, beyond their effect on control flow.
  `prompt`'s answer and each server reply are parameters.
- Asynchrony is not modelled. Each request's answer is handled in one step,
  so interleaved clicks are not covered. A second click on the same like
  button while the first request is pending reads the old list and sends a
  second like.
- `localStorage` is modelled as a map from key to a list of ids. The JSON
  encoding and a malformed stored value (which would make `JSON.parse`
  throw) are left out.
- HTML injection through `innerHTML` is not modelled.

=== FILE: app.dfy ===
/** The server side of the comment system (app.py): the upload-extension
    validator, the moderation hook, the comments-table row, and the
    decision pipeline of the comment-submission route. The sqlite table is
    modelled as an in-memory map from comment id to row. */
module App {
  import opened Optional
  import opened Text

  // ---------------------------------------------------------------------
  // Upload-extension validator (allowed_file)
  // ---------------------------------------------------------------------

  /** The extensions an uploaded file may carry, in lower case. */
  const AllowedExtensions: set<string> := {"png", "jpg", "jpeg", "gif", "mp4", "mov"}

  /** The text after the last '.', as `filename.rsplit('.', 1)[1]` gives it;
      None when the name contains no '.'. */
  function Extension(filename: string): (r: Option<string>)
    ensures r.None? <==> '.' !in filename
    ensures r.Some? ==> '.' !in r.value
    ensures r.Some? ==> |r.value| < |filename| && filename[|filename| - |r.value| - 1] == '.'
    ensures r.Some? ==> EndsWith(filename, r.value)
  {
    match LastIndexOf(filename, '.')
    case None => None
    case Some(i) => Some(filename[i + 1..])
  }

  /** Whether an uploaded file name is accepted: it has a '.', and the text
      after the last '.' lower-cases to an allowed extension. */
  function AllowedFile(filename: string): (ok: bool)
    ensures '.' !in filename ==> !ok
  {
    // the source's `'.' in filename` guard is the None case of Extension
    match Extension(filename)
    case None => false
    case Some(ext) => Lower(ext) in AllowedExtensions
  }

  /** The extension of `base + "." + ext` is `ext` whenever `ext` has no
      '.', whatever `base` holds (it may contain dots of its own). */
  lemma ExtensionOfSplit(base: string, ext: string)
    requires '.' !in ext
    ensures Extension(base + "." + ext) == Some(ext)
  {
    var f := base + "." + ext;
    assert f[|base|] == '.';
    assert f[|base| + 1..] == ext;
    LastIndexOfUnique(f, '.', |base|);
  }

  /** Only the segment after the last '.' decides: `base + "." + ext` is
      accepted exactly when `ext` lower-cases to an allowed extension. */
  lemma AllowedFileSplit(base: string, ext: string)
    requires '.' !in ext
    ensures AllowedFile(base + "." + ext) <==> Lower(ext) in AllowedExtensions
  {
    ExtensionOfSplit(base, ext);
    assert (base + "." + ext)[|base|] == '.';
  }

  /** Every name without a '.' is refused, and so is every name ending in
      '.' (its extension is empty). */
  lemma AllowedFileNeedsExtension(filename: string)
    ensures '.' !in filename ==> !AllowedFile(filename)
    ensures |filename| > 0 && filename[|filename| - 1] == '.' ==> !AllowedFile(filename)
  {
  }

  /** The comparison ignores case: two names that lower-case to the same
      string are both accepted or both refused. */
  lemma AllowedFileIgnoresCase(f: string, g: string)
    requires Lower(f) == Lower(g)
    ensures AllowedFile(f) <==> AllowedFile(g)
  {
    LowerKeepsLastIndex(f, '.');
    LowerKeepsLastIndex(g, '.');
    var last := LastIndexOf(f, '.');
    assert last == LastIndexOf(g, '.');
    if last.Some? {
      var j := last.value;
      assert Extension(f) == Some(f[j + 1..]);
      assert Extension(g) == Some(g[j + 1..]);
      LowerSuffix(f, j + 1);
      LowerSuffix(g, j + 1);
      assert Lower(f[j + 1..]) == Lower(g[j + 1..]);
    } else {
      assert Extension(f).None? && Extension(g).None?;
    }
  }

  // Representative names, one lemma each (Dafny evaluates the literal
  // names through every recursive definition, so each is kept separate).

  /** A double extension whose last part is allowed is accepted. */
  lemma DoubleExtensionAccepted()
    ensures AllowedFile("a.exe.png")
  {
    AllowedFileSplit("a.exe", "png");
    assert "a.exe.png" == "a.exe" + "." + "png";
    LowerOfLowerCase("png");
  }

  /** A double extension whose last part is not allowed is refused. */
  lemma DoubleExtensionRefused()
    ensures !AllowedFile("a.png.exe")
  {
  }

  /** An upper-case extension is accepted. */
  lemma UpperCaseAccepted()
    ensures AllowedFile("A.PNG")
  {
    AllowedFileSplit("A", "PNG");
    assert "A.PNG" == "A" + "." + "PNG";
    assert Lower("PNG") == [LowerChar('P'), LowerChar('N'), LowerChar('G')];
  }

  /** A name with no '.' and a name ending in '.' are refused. */
  lemma MissingExtensionRefused()
    ensures !AllowedFile("noext")
    ensures !AllowedFile("a.")
  {
  }

  // ---------------------------------------------------------------------
  // Moderation hook (moderate_text)
  // ---------------------------------------------------------------------

  /** The moderation policy the route consults: true means "reject". The
      submission pipeline takes the policy as a parameter; the deployed
      policy is SourceModeration. */
  type Moderation = string -> bool

  /** The deployed policy is a placeholder that flags nothing. */
  function SourceModeration(text: string): (flagged: bool)
    ensures !flagged
  {
    false
  }

  // ---------------------------------------------------------------------
  // The comments table and the submission route (add_comment)
  // ---------------------------------------------------------------------

  /** One row of the comments table: `media` and `parentId` are the
      nullable columns, `likes` defaults to 0. */
  datatype Comment = Comment(
    id: string,
    username: string,
    text: string,
    media: Option<string>,
    likes: int,
    parentId: Option<string>)

  /** The comments table, keyed by its primary key. */
  type Store = map<string, Comment>

  /** The form fields and file part of a submission, as the route reads
      them: `comment` is None when the field is missing, `media` holds the
      uploaded file's name when a file part named "media" is present. */
  datatype Request = Request(comment: Option<string>, media: Option<string>, parentId: Option<string>)

  /** An uploaded file object is truthy exactly when its file name is
      non-empty, so an empty file part counts as "no media". */
  predicate HasMedia(media: Option<string>)
  {
    media.Some? && media.value != ""
  }

  /** The public URL under which an uploaded file is served. */
  function MediaUrl(filename: string): string
  {
    "/uploads/" + filename
  }

  /** The file name the upload route serves for a URL: the path after
      "/uploads/", which the route's string converter requires to be
      non-empty and free of '/'. */
  function ServedFile(url: string): (r: Option<string>)
    ensures r.Some? ==> MediaUrl(r.value) == url && r.value != "" && '/' !in r.value
  {
    if |url| > 9 && url[..9] == "/uploads/" && '/' !in url[9..] then
      assert url == "/uploads/" + url[9..];
      Some(url[9..])
    else None
  }

  /** A file name that reaches the server unchanged when the page writes it,
      unescaped, into an element's `src`: non-empty, and free of
      - '/' and the backslash (which browsers read as '/'), which split the
        path into segments;
      - '#' and '?', which end the path;
      - '%', which the server percent-decodes;
      - tab, line feed and carriage return, which the URL parser drops;
      - '&' and '"', which the HTML parser reads as a character reference
        or as the end of the attribute. */
  predicate UrlSafeName(filename: string)
  {
    && filename != "" && '/' !in filename && '\\' !in filename
    && '#' !in filename && '?' !in filename && '%' !in filename
    && '\t' !in filename && '\n' !in filename && '\r' !in filename
    && '&' !in filename && '"' !in filename
  }

  /** The upload route maps the URL built for an accepted, URL-safe upload
      back to the name the file was saved under. (Only accepted names are
      considered: `.` and `..` would be read as path steps.) */
  lemma ServedFileOfMediaUrl(filename: string)
    requires AllowedFile(filename) && UrlSafeName(filename)
    ensures ServedFile(MediaUrl(filename)) == Some(filename)
  {
  }

  /** The application is started with `debug=True`. In debug mode the
      framework does not turn a missing form field into a 400 answer: the
      key error escapes the route and is answered by the debugger's 500
      page. */
  const DebugMode: bool := true

  /** The status of the answer to a request missing a required form field. */
  const MissingFieldStatus: nat := if DebugMode then 500 else 400

  /** Why a submission was refused. */
  datatype Refusal = MissingComment | Inappropriate | FileTypeNotAllowed

  /** The comment object returned on success: the row plus its (always
      empty) list of replies. */
  datatype CommentData = CommentData(row: Comment, replies: seq<Comment>)

  /** The route's answer. */
  datatype Response = Refused(status: nat, reason: Refusal) | Created(comment: CommentData)

  /** The route's answer together with the table after the request. */
  datatype Outcome = Outcome(response: Response, store: Store)

  /** The row a successful submission inserts: a fresh id, the author, the
      text, the media URL (if any), zero likes and the parent id exactly as
      supplied. */
  function NewRow(freshId: string, username: string, text: string, media: Option<string>, parentId: Option<string>): Comment
  {
    Comment(freshId, username, text,
            if HasMedia(media) then Some(MediaUrl(media.value)) else None,
            0, parentId)
  }

  /** The submission route. Reading a missing text field raises an error
      that the framework answers (see MissingFieldStatus); then moderation
      is consulted, then the upload's extension,
      and only then is the row inserted under the fresh id. */
  function AddComment(moderate: Moderation, store: Store, username: string, req: Request, freshId: string): (r: Outcome)
    requires freshId !in store
    // a missing text field is refused before anything else is looked at
    ensures req.comment.None? ==> r.response == Refused(MissingFieldStatus, MissingComment)
    // every refusal leaves the table alone; the route's own refusals are 400s
    ensures r.response.Refused? ==> r.store == store
    ensures r.response.Refused? && r.response.reason != MissingComment ==> r.response.status == 400
    // moderation is consulted before the upload is looked at
    ensures req.comment.Some? && moderate(req.comment.value) ==> r.response == Refused(400, Inappropriate)
    ensures (req.comment.Some? && !moderate(req.comment.value) && HasMedia(req.media) && !AllowedFile(req.media.value))
              ==> r.response == Refused(400, FileTypeNotAllowed)
    // the request is accepted exactly when nothing above objects
    ensures r.response.Created? <==>
              req.comment.Some? && !moderate(req.comment.value) && (HasMedia(req.media) ==> AllowedFile(req.media.value))
    // on success the table gains exactly one key, and every other row is untouched
    ensures r.response.Created? ==> r.store.Keys == store.Keys + {freshId}
    ensures r.response.Created? ==> forall k :: k in store ==> r.store[k] == store[k]
    // the new row and the returned record
    ensures r.response.Created? ==>
              var row := r.store[freshId];
              && row.id == freshId && row.username == username && row.text == req.comment.value
              && row.likes == 0 && row.parentId == req.parentId
              && (row.media.None? <==> !HasMedia(req.media))
              && (row.media.Some? ==> row.media.value == "/uploads/" + req.media.value)
              && r.response.comment == CommentData(row, [])
  {
    match req.comment
    case None => Outcome(Refused(MissingFieldStatus, MissingComment), store)
    case Some(text) =>
      if moderate(text) then
        Outcome(Refused(400, Inappropriate), store)
      else if HasMedia(req.media) && !AllowedFile(req.media.value) then
        Outcome(Refused(400, FileTypeNotAllowed), store)
      else
        var row := NewRow(freshId, username, text, req.media, req.parentId);
        Outcome(Created(CommentData(row, [])), store[freshId := row])
  }

  /** The media URL stored with an accepted upload leads back, through the
      upload route, to the name the file was saved under (for URL-safe
      names). */
  lemma StoredMediaIsServed(moderate: Moderation, store: Store, username: string, req: Request, freshId: string)
    requires freshId !in store
    requires HasMedia(req.media) && UrlSafeName(req.media.value)
    requires AddComment(moderate, store, username, req, freshId).response.Created?
    ensures var row := AddComment(moderate, store, username, req, freshId).store[freshId];
            row.media.Some? && ServedFile(row.media.value) == Some(req.media.value)
  {
  }

  /** Files are saved under the name the client sent, so two accepted
      uploads with the same name get the same media URL: both rows point at
      one file on disk, which the later upload overwrites. */
  lemma SameNameSharesUrl(moderate: Moderation, store: Store, u1: string, req1: Request, id1: string,
                          u2: string, req2: Request, id2: string)
    requires id1 !in store
    requires AddComment(moderate, store, u1, req1, id1).response.Created?
    requires id2 !in AddComment(moderate, store, u1, req1, id1).store
    requires AddComment(moderate, AddComment(moderate, store, u1, req1, id1).store, u2, req2, id2).response.Created?
    requires HasMedia(req1.media) && req2.media == req1.media
    ensures var s1 := AddComment(moderate, store, u1, req1, id1).store;
            var s2 := AddComment(moderate, s1, u2, req2, id2).store;
            && id1 != id2
            && s2[id1].media == s2[id2].media == Some(MediaUrl(req1.media.value))
  {
  }

  /** With the deployed moderation policy nothing is refused as
      inappropriate: a submission with text is refused only for its upload. */
  lemma SourceModerationNeverRefuses(store: Store, username: string, req: Request, freshId: string)
    requires freshId !in store
    requires req.comment.Some?
    ensures var r := AddComment(SourceModeration, store, username, req, freshId);
            r.response.Refused? <==> HasMedia(req.media) && !AllowedFile(req.media.value)
    ensures AddComment(SourceModeration, store, username, req, freshId).response != Refused(400, Inappropriate)
  {
  }

  /** The parent id is never checked: whether a submission is accepted does
      not depend on it, so a reply to a comment that does not exist (or to
      itself) is stored like any other. */
  lemma ParentIdNotValidated(moderate: Moderation, store: Store, username: string, req: Request, freshId: string, parent: Option<string>)
    requires freshId !in store
    ensures var a := AddComment(moderate, store, username, req, freshId);
            var b := AddComment(moderate, store, username, req.(parentId := parent), freshId);
            && (a.response.Created? <==> b.response.Created?)
            && (b.response.Created? ==> b.store[freshId].parentId == parent)
  {
  }

  /** On success the row read back from the table under the fresh id is the
      one the response describes, and the table grows by exactly one row. */
  lemma CreatedRowReadsBack(moderate: Moderation, store: Store, username: string, req: Request, freshId: string)
    requires freshId !in store
    requires AddComment(moderate, store, username, req, freshId).response.Created?
    ensures var r := AddComment(moderate, store, username, req, freshId);
            && freshId in r.store
            && r.store[freshId] == r.response.comment.row
            && |r.store| == |store| + 1
  {
  }
}

=== FILE: flow.dfy ===
/** One comment submission end to end: the form is sent by the script,
    decided by the server route, and the answer is handled by the script.
    The properties here connect the two halves: where a submitted comment
    ends up on the page, what the form looks like afterwards, and which
    media element an accepted upload is rendered with. */
module Flow {
  import opened Optional
  import opened Text
  import opened App
  import opened Scripts

  /** The route's answer as the script perceives it. The framework answers a
      missing text field with an HTML error page, which the script cannot
      parse and so treats like a network failure; the route's own refusals
      are JSON with `success` false. */
  function ClientSees(response: Response): (reply: ServerReply<CommentData>)
    ensures response.Created? <==> reply.Succeeded?
    ensures reply.Succeeded? ==> reply.data == response.comment
    ensures reply == Failed <==> response.Refused? && response.reason != MissingComment
  {
    match response
    case Created(data) => Succeeded(data)
    case Refused(_, MissingComment) => Unreachable
    case Refused(_, _) => Failed
  }

  /** The page, the form and the alert after a submission, and the table. */
  datatype Round = Round(effect: SubmitEffect, store: Store)

  /** Submit the form as `username`, the server drawing `freshId` as the new
      comment's id. */
  function Submit(moderate: Moderation, store: Store, username: string, freshId: string, page: Page, form: Form): (r: Round)
    requires freshId !in store
    // the table changes exactly when the server accepts the form
    ensures r.store == store <==> !Accepted(moderate, form)
    // a refusal reaches the user as a failure alert and changes nothing on the page or the form
    ensures !Accepted(moderate, form) ==> r.effect == SubmitEffect(page, form, Some(SubmitFailedAlert))
    // an accepted form adds exactly its row, holding the fields as encoded
    // in the request body, with the hidden field as parent id
    ensures Accepted(moderate, form) ==>
              r.store == store[freshId := NewRow(freshId, username, NormalizeNewlines(form.comment),
                                                 SentMedia(form.media), Some(NormalizeNewlines(form.parentId)))]
    // and the script handles the created record the server echoes
    ensures Accepted(moderate, form) ==>
              r.effect == AfterSubmit(page, form, Succeeded(CommentData(r.store[freshId], [])))
  {
    var outcome := AddComment(moderate, store, username, FormRequest(form), freshId);
    Round(AfterSubmit(page, form, ClientSees(outcome.response)), outcome.store)
  }

  /** Whether the server accepts the form, judged on the fields as they
      arrive in the request body. */
  predicate Accepted(moderate: Moderation, form: Form)
  {
    var req := FormRequest(form);
    !moderate(req.comment.value) && (HasMedia(req.media) ==> AllowedFile(req.media.value))
  }

  /** A refused submission changes nothing: not the table, not the page,
      not the form; the user is told it failed. */
  lemma RefusedSubmitChangesNothing(moderate: Moderation, store: Store, username: string, freshId: string, page: Page, form: Form)
    requires freshId !in store
    requires !Accepted(moderate, form)
    ensures var r := Submit(moderate, store, username, freshId, page, form);
            r.store == store && r.effect == SubmitEffect(page, form, Some(SubmitFailedAlert))
  {
  }

  /** A top-level comment that the server accepts is stored with the empty
      parent id the form sends (not a missing one) and its text in CRLF
      form (unchanged when it has no line break), is appended to the
      top-level container, and the file input and hidden field are
      cleared while the text stays. */
  lemma TopLevelSubmit(moderate: Moderation, store: Store, username: string, freshId: string, page: Page, form: Form)
    requires freshId !in store
    requires WellFormed(page)
    requires form.parentId == "" && Accepted(moderate, form)
    ensures var r := Submit(moderate, store, username, freshId, page, form);
            && freshId in r.store
            && r.store[freshId].parentId == Some("")
            && r.store[freshId].text == NormalizeNewlines(form.comment)
            && CrlfOnly(r.store[freshId].text)
            && r.store[freshId].likes == 0
            && r.effect.page.containers[CommentsContainer] == page.containers[CommentsContainer] + [freshId]
            && r.effect.form == Form(form.comment, None, "")
            && r.effect.alert.None?
            && WellFormed(r.effect.page)
  {
    var row := AddComment(moderate, store, username, FormRequest(form), freshId).store[freshId];
    DisplayOnWellFormedPage(page, row, false);
  }

  /** A reply accepted by the server lands in the replies container of its
      parent when the parent is on the page, and the form is reset. The
      parent id is the hidden field as the request body carries it. */
  lemma ReplySubmitToShownParent(moderate: Moderation, store: Store, username: string, freshId: string, page: Page, form: Form)
    requires freshId !in store
    requires WellFormed(page)
    requires form.parentId != "" && Shows(page, NormalizeNewlines(form.parentId)) && Accepted(moderate, form)
    ensures var r := Submit(moderate, store, username, freshId, page, form);
            var parent := NormalizeNewlines(form.parentId);
            && freshId in r.store
            && r.store[freshId].parentId == Some(parent)
            && RepliesContainer(parent) in page.containers
            && r.effect.page.containers[RepliesContainer(parent)]
                 == page.containers[RepliesContainer(parent)] + [freshId]
            && r.effect.form == Form(form.comment, None, "")
            && r.effect.alert.None?
            && WellFormed(r.effect.page)
  {
    var row := AddComment(moderate, store, username, FormRequest(form), freshId).store[freshId];
    RepliesContainerIffShown(page, NormalizeNewlines(form.parentId));
    DisplayOnWellFormedPage(page, row, true);
  }

  /** A reply to a comment that is not on the page is still stored by the
      server (the parent id is never checked), but rendering it throws, so
      the user is told the connection failed, the page is unchanged and the
      form keeps its file and parent id. */
  lemma ReplySubmitToHiddenParent(moderate: Moderation, store: Store, username: string, freshId: string, page: Page, form: Form)
    requires freshId !in store
    requires WellFormed(page)
    requires form.parentId != "" && !Shows(page, NormalizeNewlines(form.parentId)) && Accepted(moderate, form)
    ensures var r := Submit(moderate, store, username, freshId, page, form);
            && freshId in r.store
            && r.store[freshId].parentId == Some(NormalizeNewlines(form.parentId))
            && r.effect == SubmitEffect(page, form, Some(ConnectionAlert))
  {
    var row := AddComment(moderate, store, username, FormRequest(form), freshId).store[freshId];
    DisplayOnWellFormedPage(page, row, true);
  }

  /** A chosen file whose name holds a double quote is stored, and later
      served, under the escaped name: `a"b.png` becomes
      "/uploads/a%22b.png". */
  lemma QuotedFileNameStoredEscaped(moderate: Moderation, store: Store, username: string, freshId: string, page: Page,
                                    form: Form, before: string, after: string)
    requires freshId !in store
    requires '"' !in before && '\r' !in before && '\n' !in before
    requires '"' !in after && '\r' !in after && '\n' !in after
    requires form.media == Some(before + "\"" + after) && Accepted(moderate, form)
    ensures var r := Submit(moderate, store, username, freshId, page, form);
            r.store[freshId].media == Some(MediaUrl(before + "%22" + after))
  {
    QuoteInFileNameEscaped(before, after);
  }

  /** Every submission keeps the page well-formed. */
  lemma SubmitKeepsPageWellFormed(moderate: Moderation, store: Store, username: string, freshId: string, page: Page, form: Form)
    requires freshId !in store
    requires WellFormed(page)
    ensures WellFormed(Submit(moderate, store, username, freshId, page, form).effect.page)
  {
    var outcome := AddComment(moderate, store, username, FormRequest(form), freshId);
    if outcome.response.Created? {
      DisplayOnWellFormedPage(page, outcome.response.comment.row, IsReply(form));
    }
  }

  /** The media element an accepted upload is rendered with: a video exactly
      when the uploaded name ends with ".mp4" in lower case; every other
      accepted upload, including ".mov" and ".MP4" files, as an image. */
  lemma AcceptedUploadRendering(moderate: Moderation, store: Store, username: string, req: Request, freshId: string)
    requires freshId !in store
    requires HasMedia(req.media)
    requires AddComment(moderate, store, username, req, freshId).response.Created?
    ensures var row := AddComment(moderate, store, username, req, freshId).store[freshId];
            RenderMedia(row.media) == (if EndsWith(req.media.value, ".mp4") then Video else Image)
  {
    var f := req.media.value;
    var ext := Extension(f).value;
    assert |Lower(ext)| >= 3;
    EndsWithLongTail("/uploads/", f, ".mp4");
  }

  /** A QuickTime upload is accepted by the server and rendered as an image
      by the script. */
  lemma MovUploadRenderedAsImage(store: Store, username: string, freshId: string)
    requires freshId !in store
    ensures var req := Request(Some("hi"), Some("clip.mov"), None);
            var r := AddComment(SourceModeration, store, username, req, freshId);
            r.response.Created? && RenderMedia(r.store[freshId].media) == Image
  {
    var name := "clip" + "." + "mov";
    assert name == "clip.mov";
    AllowedFileSplit("clip", "mov");
    LowerOfLowerCase("mov");
    assert AllowedFile(name);
    var req := Request(Some("hi"), Some(name), None);
    AcceptedUploadRendering(SourceModeration, store, username, req, freshId);
    assert name[6] == 'o' && ".mp4"[2] == 'p';
    assert !EndsWith(name, ".mp4");
  }

  /** Pressing "Reply" on a comment shown on the page and then submitting a
      form the server accepts puts the new comment into that comment's
      replies container and clears the hidden field again. */
  lemma ReplyButtonThenSubmit(moderate: Moderation, store: Store, username: string, freshId: string, page: Page, form: Form, parent: string)
    requires freshId !in store
    requires WellFormed(page)
    requires parent != "" && Shows(page, NormalizeNewlines(parent)) && Accepted(moderate, form)
    ensures var r := Submit(moderate, store, username, freshId, page, ReplyTo(form, parent));
            && r.store[freshId].parentId == Some(NormalizeNewlines(parent))
            && r.effect.page.containers[RepliesContainer(NormalizeNewlines(parent))]
                 == page.containers[RepliesContainer(NormalizeNewlines(parent))] + [freshId]
            && r.effect.form.parentId == ""
  {
    ReplySubmitToShownParent(moderate, store, username, freshId, page, ReplyTo(form, parent));
  }

  /** The server defines no like route, so every like request is answered
      with an HTML "not found" page that the script cannot parse: however
      often the user clicks, the liked list never changes. */
  lemma {:induction false} LikesNeverRecorded(liked: seq<string>, clicks: Clicks)
    requires forall i :: 0 <= i < |clicks| ==> clicks[i].1 == Unreachable
    ensures LikeRun(liked, clicks) == liked
    decreases |clicks|
  {
    if clicks != [] {
      assert clicks[0].1 == Unreachable;
      assert forall i :: 0 <= i < |clicks[1..]| ==> clicks[1..][i] == clicks[i + 1];
      LikesNeverRecorded(liked, clicks[1..]);
    }
  }
}

=== FILE: option.dfy ===
/** An optional value: the model's stand-in for Python's `None` and for an
    absent form field or file part. */
module Optional {

  datatype Option<+T> = None | Some(value: T) {

    /** The held value; `default` stands in for a missing one */
    function GetOr(default: T): T
    {
      match this
      case Some(v) => v
      case None => default
    }
  }
}

=== FILE: scripts.dfy ===
/** The browser side of the comment system (back-end/static/scripts.js),
    with the DOM, fetch and localStorage abstracted to values: the like
    de-duplication state machine over the liked-id list, the edit-send
    guard, the choice of media element, the choice of container a comment
    is appended to, and the form state around a submission. Every server
    answer is a parameter of the function that handles it. */
module Scripts {
  import opened Optional
  import opened Text
  import App

  /** The alert boxes the script can raise. */
  datatype Alert =
    | AlreadyLikedAlert
    | LikeFailedAlert
    | EditFailedAlert
    | SubmitFailedAlert
    | ConnectionAlert

  /** How a request settled from the script's point of view: a JSON answer
      with `success` true (and its payload), a JSON answer with `success`
      false, or a rejected promise (network failure or a body that is not
      JSON), which lands in `.catch`. */
  datatype ServerReply<T> = Succeeded(data: T) | Failed | Unreachable

  // ---------------------------------------------------------------------
  // Likes (likeComment)
  // ---------------------------------------------------------------------

  /** No id occurs twice. */
  ghost predicate NoDuplicates(s: seq<string>)
  {
    forall i, j :: 0 <= i < j < |s| ==> s[i] != s[j]
  }

  /** What a click on the like button did: whether a request went out, the
      liked list afterwards, the like count written into the page (if any)
      and the alert raised (if any). */
  datatype LikeEffect = LikeEffect(sent: bool, liked: seq<string>, shownLikes: Option<int>, alert: Option<Alert>)

  /** One click on the like button of `commentId`, given the liked list read
      from storage and the server's answer to the request (ignored when no
      request is sent). */
  function LikeComment(liked: seq<string>, commentId: string, reply: ServerReply<int>): (r: LikeEffect)
    // a request goes out exactly when the id is not yet liked
    ensures r.sent <==> commentId !in liked
    ensures !r.sent ==> r.liked == liked && r.shownLikes.None? && r.alert == Some(AlreadyLikedAlert)
    // a successful like records the id at the end and shows the server's count
    ensures r.sent && reply.Succeeded? ==>
              r.liked == liked + [commentId] && r.shownLikes == Some(reply.data) && r.alert.None?
    // a refused or failed like leaves the list and the count alone
    ensures r.sent && !reply.Succeeded? ==> r.liked == liked && r.shownLikes.None? && r.alert.Some?
  {
    if commentId in liked then
      LikeEffect(false, liked, None, Some(AlreadyLikedAlert))
    else
      match reply
      case Succeeded(count) => LikeEffect(true, liked + [commentId], Some(count), None)
      case Failed => LikeEffect(true, liked, None, Some(LikeFailedAlert))
      case Unreachable => LikeEffect(true, liked, None, Some(ConnectionAlert))
  }

  /** A like keeps the liked list free of duplicates, and afterwards the id
      is in the list exactly when it was before or the like succeeded. */
  lemma LikeKeepsNoDuplicates(liked: seq<string>, commentId: string, reply: ServerReply<int>)
    requires NoDuplicates(liked)
    ensures NoDuplicates(LikeComment(liked, commentId, reply).liked)
    ensures commentId in LikeComment(liked, commentId, reply).liked <==> commentId in liked || reply.Succeeded?
  {
    var r := LikeComment(liked, commentId, reply);
    if r.sent && reply.Succeeded? {
      assert r.liked[|liked|] == commentId;
    }
  }

  /** Once a like has succeeded, clicking again sends nothing and changes
      nothing, whatever the server would answer. */
  lemma LikeIsIdempotent(liked: seq<string>, commentId: string, first: ServerReply<int>, second: ServerReply<int>)
    requires first.Succeeded?
    ensures var once := LikeComment(liked, commentId, first).liked;
            var again := LikeComment(once, commentId, second);
            !again.sent && again.liked == once
  {
    var once := LikeComment(liked, commentId, first).liked;
    if commentId !in liked {
      assert once[|liked|] == commentId;
    }
  }

  /** A sequence of clicks, each with the answer its request would get.
      The script keeps one liked list per author key (see `LikedKey`), so a
      run stands for the clicks on the comments of one author, all of which
      read and write the list stored under that author's key. */
  type Clicks = seq<(string, ServerReply<int>)>

  /** The liked list under one author's key after a sequence of clicks on
      that author's comments. */
  function LikeRun(liked: seq<string>, clicks: Clicks): seq<string>
    decreases |clicks|
  {
    if clicks == [] then liked
    else LikeRun(LikeComment(liked, clicks[0].0, clicks[0].1).liked, clicks[1..])
  }

  /** How many clicks on `commentId` sent a request that the server
      accepted, i.e. how many likes the comment received from them. */
  function AcceptedLikes(liked: seq<string>, clicks: Clicks, commentId: string): nat
    decreases |clicks|
  {
    if clicks == [] then 0
    else
      var step := LikeComment(liked, clicks[0].0, clicks[0].1);
      var counted := if clicks[0].0 == commentId && step.sent && clicks[0].1.Succeeded? then 1 else 0;
      counted + AcceptedLikes(step.liked, clicks[1..], commentId)
  }

  /** The liked list only grows: it stays a prefix of every later list. */
  lemma {:induction false} LikeRunExtends(liked: seq<string>, clicks: Clicks)
    ensures liked <= LikeRun(liked, clicks)
    decreases |clicks|
  {
    if clicks != [] {
      var next := LikeComment(liked, clicks[0].0, clicks[0].1).liked;
      LikeRunExtends(next, clicks[1..]);
    }
  }

  /** However many clicks, the liked list never holds an id twice. */
  lemma {:induction false} LikeRunKeepsNoDuplicates(liked: seq<string>, clicks: Clicks)
    requires NoDuplicates(liked)
    ensures NoDuplicates(LikeRun(liked, clicks))
    decreases |clicks|
  {
    if clicks != [] {
      LikeKeepsNoDuplicates(liked, clicks[0].0, clicks[0].1);
      LikeRunKeepsNoDuplicates(LikeComment(liked, clicks[0].0, clicks[0].1).liked, clicks[1..]);
    }
  }

  /** The de-duplication guarantee for clicks whose answers arrive before
      the next click: from one liked list, a comment receives at most one
      accepted like, and none if it was already liked. (A second click made
      while the first request is still pending reads the old list and sends
      a second like; that interleaving is outside this model.) */
  lemma {:induction false} AtMostOneAcceptedLike(liked: seq<string>, clicks: Clicks, commentId: string)
    ensures commentId in liked ==> AcceptedLikes(liked, clicks, commentId) == 0
    ensures AcceptedLikes(liked, clicks, commentId) <= 1
    decreases |clicks|
  {
    if clicks != [] {
      var step := LikeComment(liked, clicks[0].0, clicks[0].1);
      LikeRunExtends(liked, [clicks[0]]);
      assert liked <= step.liked;
      AtMostOneAcceptedLike(step.liked, clicks[1..], commentId);
      if clicks[0].0 == commentId && step.sent && clicks[0].1.Succeeded? {
        assert step.liked[|liked|] == commentId;
      }
    }
  }

  /** The browser's localStorage, reduced to the liked lists it holds: one
      list per key. */
  type LocalStorage = map<string, seq<string>>

  /** The storage key of a liked list. The page passes the comment's author
      as the user name, so lists are kept per author of the liked comment. */
  function LikedKey(username: string): string
  {
    "likedComments-" + username
  }

  /** The list stored under a user's key, or the empty list when the key is
      absent. */
  function LikedList(storage: LocalStorage, username: string): seq<string>
  {
    var key := LikedKey(username);
    if key in storage then storage[key] else []
  }

  /** A like click against the browser storage: the list is read, the click
      handled, and the list written back only after a successful like. */
  function LikeInBrowser(storage: LocalStorage, commentId: string, username: string, reply: ServerReply<int>): (r: (LikeEffect, LocalStorage))
    ensures r.0 == LikeComment(LikedList(storage, username), commentId, reply)
    // storage is written only when a request was sent and accepted
    ensures !(r.0.sent && reply.Succeeded?) ==> r.1 == storage
    ensures r.0.sent && reply.Succeeded? ==> LikedList(r.1, username) == LikedList(storage, username) + [commentId]
    // no other key is touched
    ensures forall k :: k != LikedKey(username) ==> (k in r.1 <==> k in storage) && (k in storage ==> r.1[k] == storage[k])
  {
    var effect := LikeComment(LikedList(storage, username), commentId, reply);
    if effect.sent && reply.Succeeded? then (effect, storage[LikedKey(username) := effect.liked])
    else (effect, storage)
  }

  // ---------------------------------------------------------------------
  // Editing (editComment)
  // ---------------------------------------------------------------------

  /** Whether an edit is sent, given the text shown and the prompt's answer
      (None when the prompt was cancelled): only a non-empty answer that
      differs from the shown text is sent. */
  function ShouldSendEdit(current: string, answer: Option<string>): (send: bool)
    ensures send ==> answer.Some? && answer.value != current && |answer.value| > 0
    ensures answer.Some? && answer.value != current && |answer.value| > 0 ==> send
  {
    match answer
    case None => false
    case Some(text) => text != "" && text != current
  }

  /** The part of the page an edit changes: the comment's shown text and
      whether its element carries the edit-mode class. */
  datatype EditView = EditView(text: string, editMode: bool)

  /** What an edit did: whether a request went out, the view after the
      answer arrived, and the alert raised (if any). */
  datatype EditEffect = EditEffect(sent: bool, view: EditView, alert: Option<Alert>)

  /** One edit of a comment: the edit-mode class is set as soon as the
      request goes out and cleared only when the server accepts the edit,
      whose echoed text then replaces the shown text. */
  function EditComment(view: EditView, answer: Option<string>, reply: ServerReply<string>): (r: EditEffect)
    ensures r.sent <==> answer.Some? && answer.value != "" && answer.value != view.text
    ensures !r.sent ==> r.view == view && r.alert.None?
    ensures r.sent && reply.Succeeded? ==> r.view == EditView(reply.data, false) && r.alert.None?
    ensures r.sent && !reply.Succeeded? ==> r.view == EditView(view.text, true) && r.alert.Some?
  {
    if !ShouldSendEdit(view.text, answer) then EditEffect(false, view, None)
    else
      match reply
      case Succeeded(text) => EditEffect(true, EditView(text, false), None)
      case Failed => EditEffect(true, view.(editMode := true), Some(EditFailedAlert))
      case Unreachable => EditEffect(true, view.(editMode := true), Some(ConnectionAlert))
  }

  /** Re-submitting the text that a successful edit left on the page sends
      nothing: an accepted edit is not repeated. */
  lemma EditIsIdempotent(view: EditView, answer: Option<string>, reply: ServerReply<string>, later: ServerReply<string>)
    requires reply.Succeeded? && answer == Some(reply.data)
    ensures var first := EditComment(view, answer, reply);
            var second := EditComment(first.view, answer, later);
            !second.sent && second.view == first.view
  {
  }

  // ---------------------------------------------------------------------
  // Rendering (displayComment)
  // ---------------------------------------------------------------------

  /** The media element rendered for a comment. */
  datatype MediaKind = NoMedia | Video | Image

  /** Nothing for a missing or empty media URL, a video element when the
      URL ends with ".mp4" (case-sensitive), an image element otherwise. */
  function RenderMedia(media: Option<string>): (k: MediaKind)
    ensures k == NoMedia <==> media.None? || media.value == ""
    ensures k == Video <==> media.Some? && EndsWith(media.value, ".mp4")
    ensures k == Image <==> media.Some? && media.value != "" && !EndsWith(media.value, ".mp4")
  {
    match media
    case None => NoMedia
    case Some(url) =>
      if url == "" then NoMedia
      else if EndsWith(url, ".mp4") then Video
      else Image
  }

  /** The element id of the container for top-level comments. */
  const CommentsContainer: string := "comments"

  /** The element id of the replies container every rendered comment
      carries. */
  function RepliesContainer(commentId: string): string
  {
    "replies-" + commentId
  }

  /** A value interpolated into a template string: a missing parent id
      (JSON null) reads as "null". */
  function JsText(value: Option<string>): string
  {
    value.GetOr("null")
  }

  /** The container a comment is appended to: its parent's replies
      container for a reply, the top-level container otherwise. */
  function ContainerId(c: App.Comment, isReply: bool): string
  {
    if isReply then RepliesContainer(JsText(c.parentId)) else CommentsContainer
  }

  /** Replies containers of different comments are different elements, and
      none of them is the top-level container. */
  lemma RepliesContainersDistinct(a: string, b: string)
    ensures RepliesContainer(a) == RepliesContainer(b) <==> a == b
    ensures RepliesContainer(a) != CommentsContainer
  {
    if RepliesContainer(a) == RepliesContainer(b) {
      assert a == RepliesContainer(a)[8..];
      assert b == RepliesContainer(b)[8..];
    }
    assert RepliesContainer(a)[0] == 'r';
  }

  /** A reply is appended to the replies container its parent rendered, a
      top-level comment never is. */
  lemma ReplyGoesUnderParent(c: App.Comment, parent: string)
    requires c.parentId == Some(parent)
    ensures ContainerId(c, true) == RepliesContainer(parent)
    ensures ContainerId(c, false) != RepliesContainer(parent)
  {
    RepliesContainersDistinct(parent, parent);
  }

  /** The page, reduced to its containers: each container's element id with
      the ids of the comments appended to it, in order. */
  datatype Page = Page(containers: map<string, seq<string>>)

  /** Whether a comment element with this id is on the page. */
  predicate Shows(page: Page, commentId: string)
  {
    exists k | k in page.containers :: commentId in page.containers[k]
  }

  /** The shape every page the script builds has: the top-level container
      exists, every rendered comment has its replies container, and every
      other container is the replies container of a rendered comment. */
  ghost predicate WellFormed(page: Page)
  {
    && CommentsContainer in page.containers
    && (forall k, id :: k in page.containers && id in page.containers[k] ==> RepliesContainer(id) in page.containers)
    && (forall k :: k in page.containers && k != CommentsContainer ==>
          |k| >= 8 && k == RepliesContainer(k[8..]) && Shows(page, k[8..]))
  }

  /** The page before any comment is rendered. */
  function EmptyPage(): (page: Page)
    ensures WellFormed(page)
    ensures forall id :: !Shows(page, id)
  {
    Page(map[CommentsContainer := []])
  }

  /** Adds an empty container unless one with that id exists already (the
      first element with an id is the one found by id). */
  function WithContainer(containers: map<string, seq<string>>, key: string): (r: map<string, seq<string>>)
    ensures r.Keys == containers.Keys + {key}
    ensures forall k :: k in containers ==> r[k] == containers[k]
    ensures key !in containers ==> r[key] == []
  {
    if key in containers then containers else containers[key := []]
  }

  /** The page after rendering, and whether rendering threw. */
  datatype Shown = Shown(page: Page, threw: bool)

  /** Render one comment. When its container is missing the script creates
      the replies container under the parent element (throwing if the
      parent is not on the page), but then still appends to the missing
      container, which throws as well. */
  function DisplayComment(page: Page, c: App.Comment, isReply: bool): (r: Shown)
    ensures !r.threw <==> ContainerId(c, isReply) in page.containers
    ensures !r.threw ==> r.page.containers.Keys == page.containers.Keys + {RepliesContainer(c.id)}
    ensures !r.threw ==>
              && r.page.containers[ContainerId(c, isReply)] == page.containers[ContainerId(c, isReply)] + [c.id]
              && RepliesContainer(c.id) in r.page.containers
              && Shows(r.page, c.id)
    ensures !r.threw ==> forall k :: k in page.containers && k != ContainerId(c, isReply) ==>
              r.page.containers[k] == page.containers[k]
    ensures r.threw && !(isReply && Shows(page, JsText(c.parentId))) ==> r.page == page
  {
    var target := ContainerId(c, isReply);
    if target in page.containers then
      var appended := page.containers[target := page.containers[target] + [c.id]];
      var page' := Page(WithContainer(appended, RepliesContainer(c.id)));
      assert c.id in page'.containers[target];
      Shown(page', false)
    else if isReply && Shows(page, JsText(c.parentId)) then
      Shown(Page(page.containers[target := []]), true)
    else
      Shown(page, true)
  }

  /** Rendering never hides a comment that was on the page. */
  lemma ShowsPersists(page: Page, c: App.Comment, isReply: bool, id: string)
    requires Shows(page, id)
    ensures Shows(DisplayComment(page, c, isReply).page, id)
  {
    var r := DisplayComment(page, c, isReply);
    var k :| k in page.containers && id in page.containers[k];
    assert k in r.page.containers;
    if !r.threw && k == ContainerId(c, isReply) {
      assert r.page.containers[k] == page.containers[k] + [c.id];
    }
    assert id in r.page.containers[k];
  }

  /** On a well-formed page the replies container of `p` exists exactly
      when the comment `p` is on the page. */
  lemma RepliesContainerIffShown(page: Page, p: string)
    requires WellFormed(page)
    ensures RepliesContainer(p) in page.containers <==> Shows(page, p)
  {
    var k := RepliesContainer(p);
    RepliesContainersDistinct(p, p);
    assert k[8..] == p;
    if Shows(page, p) {
      var j :| j in page.containers && p in page.containers[j];
    }
  }

  /** Rendering that does not throw keeps the page well-formed. */
  lemma DisplayKeepsWellFormed(page: Page, c: App.Comment, isReply: bool)
    requires WellFormed(page)
    requires !DisplayComment(page, c, isReply).threw
    ensures WellFormed(DisplayComment(page, c, isReply).page)
  {
    var r := DisplayComment(page, c, isReply);
    var target := ContainerId(c, isReply);
    var C := page.containers;
    var C' := r.page.containers;
    assert CommentsContainer in C';
    forall k, id | k in C' && id in C'[k]
      ensures RepliesContainer(id) in C'
    {
      if k == target {
        if id != c.id {
          assert C'[k] == C[k] + [c.id];
          assert id in C[k];
        }
      } else if k in C {
        assert C'[k] == C[k];
      }
    }
    forall k | k in C' && k != CommentsContainer
      ensures |k| >= 8 && k == RepliesContainer(k[8..]) && Shows(r.page, k[8..])
    {
      if k in C {
        ShowsPersists(page, c, isReply, k[8..]);
      } else {
        assert k == RepliesContainer(c.id);
        assert k[8..] == c.id;
      }
    }
  }

  /** On a well-formed page a top-level comment is always rendered, and a
      reply is rendered exactly when its parent is on the page: the branch
      that creates a missing replies container never completes, and a
      throw leaves the page as it was. Rendering keeps the page
      well-formed. */
  lemma DisplayOnWellFormedPage(page: Page, c: App.Comment, isReply: bool)
    requires WellFormed(page)
    ensures var r := DisplayComment(page, c, isReply);
            && (!r.threw <==> !isReply || Shows(page, JsText(c.parentId)))
            && (r.threw ==> r.page == page)
            && WellFormed(r.page)
  {
    var r := DisplayComment(page, c, isReply);
    if isReply {
      RepliesContainerIffShown(page, JsText(c.parentId));
    }
    if !r.threw {
      DisplayKeepsWellFormed(page, c, isReply);
    }
  }

  // ---------------------------------------------------------------------
  // The comment form (submit handler, replyToComment, resetFileInput)
  // ---------------------------------------------------------------------

  /** The form's inputs: the text, the chosen file's name (if a file is
      chosen) and the hidden parent-id field. */
  datatype Form = Form(comment: string, media: Option<string>, parentId: string)

  /** The "Reply" button stores the comment's id in the hidden field. */
  function ReplyTo(form: Form, commentId: string): (f: Form)
    ensures f.parentId == commentId && f.comment == form.comment && f.media == form.media
  {
    form.(parentId := commentId)
  }

  /** Every carriage return is followed by a line feed and every line feed
      follows a carriage return: the only line break is CRLF. */
  ghost predicate CrlfOnly(s: string)
  {
    (forall i :: 0 <= i < |s| && s[i] == '\r' ==> i + 1 < |s| && s[i + 1] == '\n') &&
    (forall i :: 0 <= i < |s| && s[i] == '\n' ==> 0 < i && s[i - 1] == '\r')
  }

  /** The multipart/form-data encoding of a text field: a lone CR, a lone
      LF and a CRLF pair each become CRLF. */
  function NormalizeNewlines(s: string): (r: string)
    ensures CrlfOnly(r)
    ensures ('\r' !in s && '\n' !in s) ==> r == s
    ensures r == "" <==> s == ""
    decreases |s|
  {
    if s == [] then []
    else if s[0] == '\r' && |s| > 1 && s[1] == '\n' then "\r\n" + NormalizeNewlines(s[2..])
    else if s[0] == '\r' || s[0] == '\n' then "\r\n" + NormalizeNewlines(s[1..])
    else [s[0]] + NormalizeNewlines(s[1..])
  }

  /** Text already in CRLF form is sent as it is, so the encoding is
      idempotent. */
  lemma {:induction false} NormalizeKeepsCrlf(s: string)
    requires CrlfOnly(s)
    ensures NormalizeNewlines(s) == s
    decreases |s|
  {
    if s == [] {
    } else if s[0] == '\r' {
      assert s[1] == '\n';
      var t := s[2..];
      assert CrlfOnly(t) by {
        forall i | 0 <= i < |t| && t[i] == '\n' ensures 0 < i && t[i - 1] == '\r' {
          assert s[i + 2] == '\n';
        }
      }
      NormalizeKeepsCrlf(t);
      assert s == "\r\n" + t;
    } else {
      assert s[0] != '\n';
      var t := s[1..];
      assert CrlfOnly(t) by {
        forall i | 0 <= i < |t| && t[i] == '\n' ensures 0 < i && t[i - 1] == '\r' {
          assert s[i + 1] == '\n';
        }
      }
      NormalizeKeepsCrlf(t);
      assert s == [s[0]] + t;
    }
  }

  lemma NormalizeIdempotent(s: string)
    ensures NormalizeNewlines(NormalizeNewlines(s)) == NormalizeNewlines(s)
  {
    NormalizeKeepsCrlf(NormalizeNewlines(s));
  }

  /** The multipart/form-data encoding of a file name: a double quote, a
      CR and a LF are percent-escaped as %22, %0D and %0A. */
  function EscapeFileName(name: string): (r: string)
    ensures '"' !in r && '\r' !in r && '\n' !in r
    ensures ('"' !in name && '\r' !in name && '\n' !in name) ==> r == name
    ensures r == "" <==> name == ""
    decreases |name|
  {
    if name == [] then []
    else if name[0] == '"' then "%22" + EscapeFileName(name[1..])
    else if name[0] == '\r' then "%0D" + EscapeFileName(name[1..])
    else if name[0] == '\n' then "%0A" + EscapeFileName(name[1..])
    else [name[0]] + EscapeFileName(name[1..])
  }

  /** A plain prefix (no quote, CR or LF) is copied through unchanged. */
  lemma {:induction false} EscapePlainPrefix(plain: string, rest: string)
    requires '"' !in plain && '\r' !in plain && '\n' !in plain
    ensures EscapeFileName(plain + rest) == plain + EscapeFileName(rest)
    decreases |plain|
  {
    if plain == [] {
      assert plain + rest == rest;
    } else {
      var whole := plain + rest;
      assert whole[0] == plain[0] && whole[1..] == plain[1..] + rest;
      assert plain[0] in plain;
      assert EscapeFileName(whole) == [plain[0]] + EscapeFileName(plain[1..] + rest);
      EscapePlainPrefix(plain[1..], rest);
      assert plain == [plain[0]] + plain[1..];
    }
  }

  /** A double quote between plain parts is the only thing that changes:
      `a"b.png` is sent as `a%22b.png`. */
  lemma QuoteInFileNameEscaped(before: string, after: string)
    requires '"' !in before && '\r' !in before && '\n' !in before
    requires '"' !in after && '\r' !in after && '\n' !in after
    ensures EscapeFileName(before + "\"" + after) == before + "%22" + after
  {
    var quoted := "\"" + after;
    EscapePlainPrefix(before, quoted);
    assert quoted[0] == '"' && quoted[1..] == after;
    assert EscapeFileName(quoted) == "%22" + EscapeFileName(after);
    assert before + "\"" + after == before + quoted;
  }

  /** The file name sent for the chosen file, if any. */
  function SentMedia(media: Option<string>): (r: Option<string>)
    ensures r.Some? <==> media.Some?
    ensures App.HasMedia(r) <==> App.HasMedia(media)
  {
    match media
    case None => None
    case Some(name) => Some(EscapeFileName(name))
  }

  /** The fields sent: the text and the parent id always (an empty string
      when not replying), the file only when one is chosen, each in its
      multipart/form-data encoding. */
  function FormRequest(form: Form): (req: App.Request)
    ensures req.comment.Some? && req.parentId.Some?
    ensures CrlfOnly(req.comment.value) && CrlfOnly(req.parentId.value)
    ensures ('\r' !in form.comment && '\n' !in form.comment) ==> req.comment == Some(form.comment)
    ensures ('\r' !in form.parentId && '\n' !in form.parentId) ==> req.parentId == Some(form.parentId)
    ensures (req.parentId.value == "") <==> !IsReply(form)
    ensures App.HasMedia(req.media) <==> App.HasMedia(form.media)
    ensures App.HasMedia(req.media) ==> '"' !in req.media.value && '\r' !in req.media.value && '\n' !in req.media.value
  {
    App.Request(Some(NormalizeNewlines(form.comment)), SentMedia(form.media), Some(NormalizeNewlines(form.parentId)))
  }

  /** A submission is rendered as a reply exactly when the hidden field is
      non-empty. */
  predicate IsReply(form: Form)
  {
    form.parentId != ""
  }

  /** What a submission did to the page and the form, and the alert raised
      (if any). */
  datatype SubmitEffect = SubmitEffect(page: Page, form: Form, alert: Option<Alert>)

  /** Handle the answer to a submission: a created comment is rendered
      (as a reply when the hidden field was set), after which the file input
      and the hidden field are cleared; the text is kept. A throw while
      rendering is caught like a network failure, before any reset. */
  function AfterSubmit(page: Page, form: Form, reply: ServerReply<App.CommentData>): (r: SubmitEffect)
    ensures !reply.Succeeded? ==> r.page == page && r.form == form && r.alert.Some?
    ensures reply.Succeeded? ==>
              var shown := DisplayComment(page, reply.data.row, form.parentId != "");
              && r.page == shown.page
              && (shown.threw ==> r.form == form && r.alert == Some(ConnectionAlert))
              && (!shown.threw ==> r.form == Form(form.comment, None, "") && r.alert.None?)
  {
    match reply
    case Succeeded(data) =>
      var shown := DisplayComment(page, data.row, IsReply(form));
      if shown.threw then SubmitEffect(shown.page, form, Some(ConnectionAlert))
      else SubmitEffect(shown.page, form.(media := None, parentId := ""), None)
    case Failed => SubmitEffect(page, form, Some(SubmitFailedAlert))
    case Unreachable => SubmitEffect(page, form, Some(ConnectionAlert))
  }
}

=== FILE: text.dfy ===
/** String helpers shared by the server and client models: ASCII
    lower-casing (Python's `str.lower` restricted to ASCII), the position of
    the last occurrence of a character (what `str.rsplit(sep, 1)` splits at),
    and JavaScript's `String.prototype.endsWith`. */
module Text {
  import opened Optional

  /** Lower-case one character; only the ASCII letters 'A'..'Z' change. */
  function LowerChar(c: char): char
  {
    if 'A' <= c <= 'Z' then (c as int + 32) as char else c
  }

  /** Lower-case a string character by character. */
  function Lower(s: string): (r: string)
    ensures |r| == |s|
    ensures forall i :: 0 <= i < |s| ==> r[i] == LowerChar(s[i])
  {
    if s == [] then [] else [LowerChar(s[0])] + Lower(s[1..])
  }

  /** Lower-casing commutes with taking a suffix. */
  lemma LowerSuffix(s: string, i: int)
    requires 0 <= i <= |s|
    ensures Lower(s[i..]) == Lower(s)[i..]
  {
  }

  /** A string with no upper-case ASCII letter is its own lower case. */
  lemma LowerOfLowerCase(s: string)
    requires forall i :: 0 <= i < |s| ==> !('A' <= s[i] <= 'Z')
    ensures Lower(s) == s
  {
  }

  /** The index of the last occurrence of `c` in `s`, or None if `c` does
      not occur. */
  function LastIndexOf(s: string, c: char): (r: Option<nat>)
    ensures r.None? <==> c !in s
    ensures r.Some? ==> r.value < |s| && s[r.value] == c
    ensures r.Some? ==> forall k :: r.value < k < |s| ==> s[k] != c
  {
    if |s| == 0 then None
    else if s[|s| - 1] == c then Some(|s| - 1)
    else
      assert s == s[..|s| - 1] + [s[|s| - 1]];
      LastIndexOf(s[..|s| - 1], c)
  }

  /** The last occurrence is determined by the two facts the contract of
      LastIndexOf states: any index holding `c` with no `c` after it is it. */
  lemma LastIndexOfUnique(s: string, c: char, j: nat)
    requires j < |s| && s[j] == c
    requires forall k :: j < k < |s| ==> s[k] != c
    ensures LastIndexOf(s, c) == Some(j)
  {
    assert c in s;
  }

  /** Lower-casing does not move a non-letter: its last occurrence is at
      the same index before and after. */
  lemma LowerKeepsLastIndex(s: string, c: char)
    requires !('A' <= c <= 'Z') && !('a' <= c <= 'z')
    ensures LastIndexOf(Lower(s), c) == LastIndexOf(s, c)
  {
    var l := Lower(s);
    match LastIndexOf(s, c)
    case None =>
      assert forall k :: 0 <= k < |l| ==> l[k] != c;
    case Some(j) =>
      LastIndexOfUnique(l, c, j);
  }

  /** JavaScript's `s.endsWith(suffix)`: case-sensitive, and true for the
      empty suffix. */
  predicate EndsWith(s: string, suffix: string)
  {
    |suffix| <= |s| && s[|s| - |suffix|..] == suffix
  }

  /** A suffix test on `p + s` looks only at `s` once `s` is long enough. */
  lemma EndsWithLongTail(p: string, s: string, suffix: string)
    requires |suffix| <= |s|
    ensures EndsWith(p + s, suffix) <==> EndsWith(s, suffix)
  {
    assert (p + s)[|p + s| - |suffix|..] == s[|s| - |suffix|..];
  }
}
